=== FILE: README.md ===
# SRCNN window tiling: split and merge

The SRCNN inference script runs a fixed-size super-resolution network over images of any
size. `SRCNN.split` cuts an `h x w` image into `height x width` windows, the network's input
size. It moves a strided window across the image in raster order. For the right and bottom
edges it adds windows that sit flush with the edge, unless the dimension is an exact multiple
of the window. `SRCNN.merge` walks the same corners in the same order. It writes each
predicted window onto an all-zero canvas of the input image's size, so a later window overwrites
any overlap with an earlier one. `SRCNN.predict` chains split, the network and merge.

The model is organised as follows.

- `Strides` holds stride arithmetic. `Steps(k, s)` is `k * s` defined by repeated addition.
  `StrideCount` is the closed-form count of strided offsets. The facts linking them to `*`,
  `/` and `%` live here.
- `Geometry` holds the walk. `Positions(t, h, w)` is the loop structure written once as a
  pure function. Lemmas give its length, the corner at every index, raster order, bounds,
  when edge windows appear, and the uncovered band at exact multiples.
- `Images` defines images as `seq<seq<int>>`. It provides reading a window (`Crop`) and
  overwriting one (`Paste`).
- `Tiler` holds `Split` and `SplitLoop`. `SplitLoop` follows the loops of `SRCNN.split` and is
  proved to equal `Split`.
- `Merger` holds `Merge` as a left fold of `Paste` over the walk, with errors for missing or
  misshapen predictions. `MergeLoop` follows the loops of `SRCNN.merge` and is proved equal to
  `Merge`. This module also has last-write-wins, the split/merge round trip and `Predict`.
- `Outcomes` holds `Option` and `Result`.
- `Scenarios` works out three small walks concretely.

Every operation requires positive window sizes and strides, and an image at least as large
as the window (`Tiling.Admits`). A zero or negative stride makes a strided loop of
`SRCNN.split` or `SRCNN.merge` run forever once it is entered (test/Test.py:48, 50, 71, 101,
103, 115). The precondition also excludes such strides on inputs where no loop runs, such as
an image exactly the window's size. A zero window size is excluded too: there
`w % self.width` raises ZeroDivisionError (test/Test.py:42-43, 94-95). Negative window sizes
are not modelled either.

## Behaviour at the edges

- The strided loops stop as soon as a window would reach the far edge, because their guards
  `y + height < h` and `x + width < w` are strict (test/Test.py:48, 50, 71). An edge window is
  added only when the dimension is not a multiple of the window (test/Test.py:42-43, 59, 69).
  So an 8 x 8 image with 4 x 4 windows and stride 4 yields the single corner (0, 0).
- An image exactly the window's size passes no guard and sets both skips, so split yields no
  windows and merge returns the zero canvas.
- The bottom row's strided loop is guarded by the width, `x + width < w` (test/Test.py:71).
- `SRCNN.merge` reads `pred_images[index]` once per window (test/Test.py:104) and never checks
  the length of `pred_images`, so surplus predictions are ignored.
- With an empty batch, `SRCNN.split` returns a one-dimensional empty array (test/Test.py:88).
  `SRCNN.predict` feeds it to the network's four-dimensional input, which raises
  (test/Test.py:127). `Predict` reports this as `EmptyBatch`.

## Model

| member | source | states |
|---|---|---|
| Geometry.RowSweep | test/Test.py:49-57 | every window of the inner strided loop stays in its row, starts at or right of the start column and passes the guard `x + width < w` |
| Geometry.RowSweepAt | test/Test.py:49-57 | the inner strided loop emits StrideCount(w - width - x) windows, the i-th at column x + i * xStride |
| Geometry.Row | test/Test.py:49-65 | a row holds Columns(w) windows, the j-th at column XCoord(j): strided, then the flush right-edge window unless w % width == 0 |
| Geometry.RightEdge | test/Test.py:59-65 | no contract of its own: the single `-width:` window of a row (also lines 80-86), present exactly when `w % width != 0`; `Row` and `RightEdgeIff` state its place and presence |
| Geometry.StrideRows | test/Test.py:47-67 | no contract of its own: the outer loop `while y + height < h`, one `Row` per strided y; `StrideRowsLength` and `StrideRowsAt` state its length and layout |
| Geometry.BottomRow | test/Test.py:69-86 | no contract of its own: the row anchored at `h - height`, present exactly when `h % height != 0`; `BottomRowAt` and `BottomEdgeIff` state its place and presence |
| Geometry.Positions | test/Test.py:47-86 | no contract of its own: the walk of split and merge as one pure function; `PositionsAt`, `PositionsCount` and `RasterOrder` state its shape |
| Geometry.StrideRowsLength | test/Test.py:47-67 | the strided rows hold StrideCount(h - height) * Columns(w) windows |
| Geometry.StrideRowsAt | test/Test.py:47-67 | window (k, j) of the strided rows sits at index k * Columns + j, at row k * yStride and column XCoord(j) |
| Geometry.StridedRowAt | test/Test.py:47-67 | the strided rows are a prefix of the whole walk, laid out row-major |
| Geometry.BottomRowAt | test/Test.py:69-86 | the bottom row, present when h % height != 0, follows all strided rows and sits at row h - height |
| Geometry.PositionsGrid | test/Test.py:39-86 | the walk is a grid of Rows(h) rows of Columns(w) windows |
| Geometry.PositionsCount | test/Test.py:39-86 | count formula: the walk has (strided rows + [h % height != 0]) * (strided columns + [w % width != 0]) windows |
| Geometry.PositionsAt | test/Test.py:47-86 | window (k, j) of the grid is at index k * Columns + j and its corner is (XCoord(j), YCoord(k)) |
| Geometry.PositionAt | test/Test.py:47-86 | every index of the walk is some grid window (k, j), with its corner |
| Geometry.XCoordStrict | test/Test.py:50 | strided columns pass the guard `x + width < w` |
| Geometry.YCoordStrict | test/Test.py:48 | strided rows pass the guard `y + height < h` |
| Geometry.XCoordIncreasing | test/Test.py:50-65 | columns increase strictly along a row, with the right-edge window last |
| Geometry.YCoordIncreasing | test/Test.py:47-69 | rows of windows increase strictly, with the bottom row last |
| Geometry.RasterOrder | test/Test.py:47-86 | each corner precedes every later one in raster order, so no corner is visited twice |
| Geometry.PositionPlaced | test/Test.py:42-86 | a window ends strictly inside a dimension unless it is that dimension's edge window, which needs a non-multiple |
| Geometry.PositionsPlaced | test/Test.py:42-86 | every window of the walk satisfies `Placed` |
| Geometry.PositionsFit | test/Test.py:56-86 | every window lies inside the h x w image |
| Geometry.HasStrideRow | test/Test.py:48 | there is a strided row exactly when h > height |
| Geometry.HasStrideCol | test/Test.py:50 | there is a strided column exactly when w > width |
| Geometry.RightEdgeIff | test/Test.py:42-65 | a window flush with the right edge appears exactly when w % width != 0 and h > height |
| Geometry.BottomEdgeIff | test/Test.py:43-86 | a window flush with the bottom edge appears exactly when h % height != 0 and w > width |
| Geometry.EmptyIff | test/Test.py:47-86 | the walk is empty exactly when h == height or w == width |
| Geometry.CornerIsLast | test/Test.py:82-86 | for non-multiples in both dimensions the last window is the bottom-right corner (w - width, h - height) |
| Geometry.ColumnBandUncovered | test/Test.py:42-65 | for w > width and w % width == 0, no window starts right of the last strided column, which ends before w |
| Geometry.RowBandUncovered | test/Test.py:43-69 | for h > height and h % height == 0, no window starts below the last strided row, which ends before h |
| Geometry.ColumnHit | test/Test.py:50-65 | for a non-multiple width and xStride <= width, each column lies under some window of a row |
| Geometry.RowHit | test/Test.py:48-69 | for a non-multiple height and yStride <= height, each row lies under some row of windows |
| Geometry.PixelCovered | test/Test.py:47-86 | with non-multiples in both dimensions and strides no larger than the window, a given pixel lies under some window of the walk |
| Geometry.FullCoverage | test/Test.py:47-86 | non-multiples in both dimensions with strides no larger than the window cover every pixel |
| Images.Zeros | test/Test.py:98 | the canvas has shape h x w and every pixel is 0 |
| Images.Crop | test/Test.py:56 | the slice `image[y:y+height, x:x+width]` holds exactly the pixels of that window |
| Images.Paste | test/Test.py:104 | slice assignment writes the patch inside the window and leaves every other pixel and the shape unchanged |
| Images.CropOfPaste | test/Test.py:104 | reading back a window just written gives the patch written |
| Images.PasteOfCrop | test/Test.py:56 | writing a window with its own contents leaves the image unchanged |
| Images.CropAll | test/Test.py:56-86 | a batch holds one window per corner, in corner order |
| Tiler.Split | test/Test.py:39-89 | split returns one window per corner of the walk, entry i being the window at corner i |
| Tiler.SplitSweep | test/Test.py:49-57 | the inner strided loop appends the next windows of the expected batch and consumes its row's sweep |
| Tiler.SplitRow | test/Test.py:49-65 | one iteration of the row loop appends the row's windows, including the right edge when w % width != 0 |
| Tiler.SplitLoop | test/Test.py:39-89 | the nested loops of split build exactly the batch `Split` describes |
| Merger.PasteFrom | test/Test.py:97-120 | writing the remaining predictions keeps the canvas h x w |
| Merger.PasteFromOutcome | test/Test.py:104-120 | the writes succeed exactly when every remaining prediction exists and is well shaped; otherwise the error names the first bad one, as missing exactly when past the end |
| Merger.FoldOutcome | test/Test.py:97-120 | from index 0, success means enough well-shaped predictions; a missing prediction is always reported at index len(preds) |
| Merger.Merge | test/Test.py:91-123 | merge succeeds exactly when there is a well-shaped prediction for every window, returns an h x w image, and otherwise reports the first missing or misshapen prediction |
| Merger.LastCover | test/Test.py:104-120 | finds the last corner, in walk order, whose window covers a pixel, or reports that none does |
| Merger.PasteFromPixel | test/Test.py:104-120 | after the writes, each pixel holds the last covering prediction's pixel, or the canvas value when uncovered |
| Merger.MergeLastWriteWins | test/Test.py:98-120 | last write wins: each merged pixel is the last covering prediction's pixel, or 0 if no window covers it |
| Merger.MergeOfWindows | test/Test.py:97-120 | merging windows read from an image restores every covered pixel and leaves uncovered pixels 0 |
| Merger.SplitMergeRoundTrip | test/Test.py:39-123 | merge(split(img)) succeeds and equals img on covered pixels and 0 elsewhere |
| Merger.SplitMergeIdentity | test/Test.py:39-123 | for non-multiples with strides no larger than the window, merge(split(img)) == img |
| Merger.MergeColumnBandZero | test/Test.py:94-111 | for an exact multiple width, the non-empty column band right of the last strided window is 0 in every merge |
| Merger.MergeRowBandZero | test/Test.py:95-113 | for an exact multiple height, the non-empty row band below the last strided row is 0 in every merge |
| Merger.MergeConsumesSplitCount | test/Test.py:45-120 | merge needs exactly as many predictions as split produces windows, and a short batch fails at index len(preds) |
| Merger.PasteFromIgnoresExtra | test/Test.py:104-120 | predictions past the last corner do not affect the writes |
| Merger.MergeIgnoresExtra | test/Test.py:97-120 | appending predictions to a long enough batch does not change the merge |
| Merger.MergeDegenerate | test/Test.py:101-120 | with h == height or w == width, merge writes nothing and returns the zero canvas |
| Merger.MergeStep | test/Test.py:104 | one write reports a missing or misshapen prediction, or writes it and leaves the fold's outcome unchanged |
| Merger.MergeSweep | test/Test.py:102-106 | the inner strided loop of merge writes its row's strided windows in walk order |
| Merger.MergeRow | test/Test.py:102-109 | one iteration of the row loop writes the row's windows, including the right edge when w % width != 0 |
| Merger.MergeStridedRows | test/Test.py:100-111 | the outer loop of merge writes all strided rows, leaving only the bottom row |
| Merger.MergeWalk | test/Test.py:97-123 | the loops of merge, with their explicit prediction counter, produce the fold's outcome |
| Merger.MergeLoop | test/Test.py:91-123 | the nested loops of merge compute exactly `Merge` |
| Merger.Predict | test/Test.py:125-128 | predict fails with `EmptyBatch` exactly when split yields no windows; it succeeds exactly when the batch is non-empty and the network returns a well-shaped window for each input window, and then returns an h x w image |
| Merger.PredictIdentity | test/Test.py:125-128 | with an identity network, predict succeeds exactly when h > height and w > width, and then restores every covered pixel and zeroes the rest |
| Scenarios.TenByTen | test/Test.py:39-89 | a 10 x 10 image with 4 x 4 windows and strides 3 gives nine corners, from (0, 0) to (6, 6), in raster order |
| Scenarios.EightByEight | test/Test.py:39-89 | an 8 x 8 image with 4 x 4 windows and stride 4 gives only (0, 0) |
| Scenarios.WindowSized | test/Test.py:39-89 | an image of exactly the window's size gives no windows |

## Left out

- Model loading, the TensorFlow session and the GPU options (test/Test.py:11-37) are left out. Only the window size and strides they fix are modelled, as `Tiling`.
- The network call in `predict` (test/Test.py:127) is a parameter of `Predict`, because it is a foreign computation.
- Merger.Predict: the network is a total function on non-empty batches. Failures of the network itself, such as running out of GPU memory, are not modelled. Only the empty batch, which the network's input rejects, is reported.
- Division by 255 in split and multiplication by 255 in predict are left out, because they are floating-point scaling. Pixels are integers.
- The final `uint8` cast in merge (test/Test.py:122) is left out, because the canvas is `int` throughout.
- The channel axis is folded into one `int` per pixel, because every slice carries it along unchanged.
- Merger.Merge: accepts a prediction only when it is exactly `height x width`. NumPy's slice assignment would also broadcast some other shapes into the window; that broadcasting is not modelled.
- Non-positive strides are excluded by the precondition: `Tiling` holds them as `nat` and `Valid` demands them positive. This includes the inputs on which no strided loop is entered and the source would return normally. A zero or negative stride loops forever once its loop is entered.
- Images smaller than the window are excluded by the precondition. The slices of `SRCNN.split` and `SRCNN.merge` then truncate or go negative; that is not modelled.
- The script driver (test/Test.py:130-153) is left out: file globbing, colour conversion, resizing and display. Train_with_Epoch.py (training) is not part of this model.

=== FILE: geometry.dfy ===
/**
 The window-placement geometry shared by `SRCNN.split` and `SRCNN.merge`.

 Both methods walk an h x w image with a height x width window in raster order:
 strided rows while `y + height < h`, strided columns while `x + width < w`, one
 right-edge window per row unless `w % width == 0`, and one bottom row anchored at
 `h - height` unless `h % height == 0`. `Positions` is that walk written once, as
 a pure function; the lemmas below describe the sequence it produces without
 reference to the loops: its length, the offset at every index, its order, and
 where edge windows appear.
 */
module Geometry {
  import opened Strides

  /** Top-left corner of a window: column `x`, row `y`. */
  datatype Offset = Offset(x: nat, y: nat)

  /** The tiling parameters of an SRCNN instance: the window size taken from the
      network's input tensor shape and the horizontal and vertical strides. */
  datatype Tiling = Tiling(height: nat, width: nat, xStride: nat, yStride: nat)
  {
    /** Non-empty window and positive strides; with a non-positive stride the loops never end. */
    predicate Valid() {
      height > 0 && width > 0 && xStride > 0 && yStride > 0
    }

    /** Rows w pixels wide are at least as wide as the window. */
    predicate AdmitsWidth(w: nat) {
      Valid() && w >= width
    }

    /** Columns h pixels tall are at least as tall as the window. */
    predicate AdmitsHeight(h: nat) {
      Valid() && h >= height
    }

    /** An h x w image is at least as large as the window in both dimensions: both
        `AdmitsHeight(h)` and `AdmitsWidth(w)`, written flat. */
    predicate Admits(h: nat, w: nat) {
      Valid() && h >= height && w >= width
    }
  }

  /** Pixel (r, c) lies inside the height x width window whose corner is p. */
  predicate Covers(p: Offset, height: nat, width: nat, r: int, c: int) {
    p.y <= r < p.y + height && p.x <= c < p.x + width
  }

  /** Every height x width window with a corner in ps lies inside an h x w image. */
  predicate AllInside(ps: seq<Offset>, height: nat, width: nat, h: nat, w: nat) {
    forall i :: 0 <= i < |ps| ==> ps[i].x + width <= w && ps[i].y + height <= h
  }

  /** p strictly precedes q in raster order: an earlier row, or the same row further left. */
  predicate RasterBefore(p: Offset, q: Offset) {
    p.y < q.y || (p.y == q.y && p.x < q.x)
  }

  // ---------------------------------------------------------------------------
  // The grid the walk lays out

  /** Number of strided columns: #{k >= 0 : k * xStride + width < w}. */
  function StrideCols(t: Tiling, w: nat): nat
    requires t.Valid()
  {
    StrideCount(w - t.width, t.xStride)
  }

  /** Number of strided rows: #{k >= 0 : k * yStride + height < h}. */
  function StrideRowCount(t: Tiling, h: nat): nat
    requires t.Valid()
  {
    StrideCount(h - t.height, t.yStride)
  }

  /** Windows per row: the strided columns, plus the right-edge window unless w is a multiple of width. */
  function Columns(t: Tiling, w: nat): nat
    requires t.Valid()
  {
    StrideCols(t, w) + (if w % t.width != 0 then 1 else 0)
  }

  /** Rows of windows: the strided rows, plus the bottom row unless h is a multiple of height. */
  function Rows(t: Tiling, h: nat): nat
    requires t.Valid()
  {
    StrideRowCount(t, h) + (if h % t.height != 0 then 1 else 0)
  }

  /** Column of the j-th window of a row: j * xStride while strided, then flush with the right edge. */
  function XCoord(t: Tiling, w: nat, j: nat): nat
    requires t.AdmitsWidth(w)
  {
    if j < StrideCols(t, w) then Steps(j, t.xStride) else w - t.width
  }

  /** Row of the k-th row of windows: k * yStride while strided, then flush with the bottom edge. */
  function YCoord(t: Tiling, h: nat, k: nat): nat
    requires t.AdmitsHeight(h)
  {
    if k < StrideRowCount(t, h) then Steps(k, t.yStride) else h - t.height
  }

  // ---------------------------------------------------------------------------
  // The walk, mirroring the loop structure of split and merge

  /** The inner strided loop `while x + width < w: emit (x, y); x += xStride`, from column x.
      Every window it emits is in row y, starts at or right of x and passes the loop guard. */
  function RowSweep(t: Tiling, w: nat, x: nat, y: nat): (ps: seq<Offset>)
    requires t.Valid()
    ensures forall i :: 0 <= i < |ps| ==> ps[i].y == y && x <= ps[i].x && ps[i].x + t.width < w
    decreases w - x
  {
    if x + t.width < w then [Offset(x, y)] + RowSweep(t, w, x + t.xStride, y) else []
  }

  /** The right-edge window of row y, emitted unless w is a multiple of width. */
  function RightEdge(t: Tiling, w: nat, y: nat): seq<Offset>
    requires t.AdmitsWidth(w)
  {
    if w % t.width != 0 then [Offset(w - t.width, y)] else []
  }

  /** One full row of windows at row y: the strided sweep, then the right edge. */
  function Row(t: Tiling, w: nat, y: nat): (ps: seq<Offset>)
    requires t.AdmitsWidth(w)
    ensures |ps| == Columns(t, w)
    ensures forall j :: 0 <= j < |ps| ==> ps[j] == Offset(XCoord(t, w, j), y)
  {
    RowSweepAt(t, w, 0, y);
    RowSweep(t, w, 0, y) + RightEdge(t, w, y)
  }

  /** The outer loop `while y + height < h: <row y>; y += yStride`, from row y. */
  function StrideRows(t: Tiling, h: nat, w: nat, y: nat): seq<Offset>
    requires t.Admits(h, w)
    decreases h - y
  {
    if y + t.height < h then Row(t, w, y) + StrideRows(t, h, w, y + t.yStride) else []
  }

  /** The bottom row anchored at h - height, emitted unless h is a multiple of height. */
  function BottomRow(t: Tiling, h: nat, w: nat): seq<Offset>
    requires t.Admits(h, w)
  {
    if h % t.height != 0 then Row(t, w, h - t.height) else []
  }

  /** Every window corner visited by split and by merge, in visiting order. */
  function Positions(t: Tiling, h: nat, w: nat): seq<Offset>
    requires t.Admits(h, w)
  {
    StrideRows(t, h, w, 0) + BottomRow(t, h, w)
  }

  /** Pixel (r, c) lies under at least one window of the walk. */
  ghost predicate Covered(t: Tiling, h: nat, w: nat, r: int, c: int)
    requires t.Admits(h, w)
  {
    var ps := Positions(t, h, w);
    exists i :: 0 <= i < |ps| && Covers(ps[i], t.height, t.width, r, c)
  }

  /** Consuming the head of the unvisited suffix of a walk. */
  lemma NextPosition(ps: seq<Offset>, n: nat, p: Offset, rest: seq<Offset>)
    requires n <= |ps| && ps[n..] == [p] + rest
    ensures n < |ps| && ps[n] == p && ps[n + 1..] == rest
  {
    assert ps[n..][0] == p;
    assert ps[n + 1..] == ps[n..][1..];
  }

  // One step of the loops of split and merge, stated on the unvisited suffix ps[n..] of the walk.

  /** Entering a strided row: the row's sweep, its right edge, then the later rows. */
  lemma EnterRow(t: Tiling, h: nat, w: nat, y: nat, ps: seq<Offset>, n: nat, bottom: seq<Offset>)
    requires t.Admits(h, w) && y + t.height < h
    requires n <= |ps| && ps[n..] == StrideRows(t, h, w, y) + bottom
    ensures ps[n..] == RowSweep(t, w, 0, y) + (RightEdge(t, w, y) + (StrideRows(t, h, w, y + t.yStride) + bottom))
  {
  }

  /** A strided window of the sweep is visited next. */
  lemma SweepStep(t: Tiling, w: nat, x: nat, y: nat, ps: seq<Offset>, n: nat, tail: seq<Offset>)
    requires t.Valid() && x + t.width < w
    requires n <= |ps| && ps[n..] == RowSweep(t, w, x, y) + tail
    ensures n < |ps| && ps[n] == Offset(x, y) && ps[n + 1..] == RowSweep(t, w, x + t.xStride, y) + tail
  {
    NextPosition(ps, n, Offset(x, y), RowSweep(t, w, x + t.xStride, y) + tail);
  }

  /** The sweep is over once the window would reach the right edge. */
  lemma SweepEnd(t: Tiling, w: nat, x: nat, y: nat, ps: seq<Offset>, n: nat, tail: seq<Offset>)
    requires t.Valid() && x + t.width >= w
    requires n <= |ps| && ps[n..] == RowSweep(t, w, x, y) + tail
    ensures ps[n..] == tail
  {
  }

  /** The right-edge window of a row is visited next, unless w is a multiple of width. */
  lemma EdgeStep(t: Tiling, w: nat, y: nat, ps: seq<Offset>, n: nat, rest: seq<Offset>)
    requires t.AdmitsWidth(w)
    requires n <= |ps| && ps[n..] == RightEdge(t, w, y) + rest
    ensures w % t.width != 0 ==> n < |ps| && ps[n] == Offset(w - t.width, y) && ps[n + 1..] == rest
    ensures w % t.width == 0 ==> ps[n..] == rest
  {
    if w % t.width != 0 {
      NextPosition(ps, n, Offset(w - t.width, y), rest);
    }
  }

  /** Leaving the strided rows: only the bottom row remains. */
  lemma LeaveRows(t: Tiling, h: nat, w: nat, y: nat, ps: seq<Offset>, n: nat)
    requires t.Admits(h, w) && y + t.height >= h
    requires n <= |ps| && ps[n..] == StrideRows(t, h, w, y) + BottomRow(t, h, w)
    ensures h % t.height != 0 ==>
              ps[n..] == RowSweep(t, w, 0, h - t.height) + (RightEdge(t, w, h - t.height) + [])
    ensures h % t.height == 0 ==> ps[n..] == []
  {
  }

  // ---------------------------------------------------------------------------
  // Shape of the walk

  /** The sweep from column x emits StrideCount(w - width - x) windows, the i-th at x + i * xStride. */
  lemma {:induction false} RowSweepAt(t: Tiling, w: nat, x: nat, y: nat)
    requires t.Valid()
    ensures |RowSweep(t, w, x, y)| == StrideCount(w - t.width - x, t.xStride)
    ensures forall i :: 0 <= i < |RowSweep(t, w, x, y)| ==>
              RowSweep(t, w, x, y)[i] == Offset(x + Steps(i, t.xStride), y)
    decreases w - x
  {
    if x + t.width < w {
      var rest := RowSweep(t, w, x + t.xStride, y);
      RowSweepAt(t, w, x + t.xStride, y);
      StrideCountStep(w - t.width - x, t.xStride);
      forall i | 0 <= i < |RowSweep(t, w, x, y)|
        ensures RowSweep(t, w, x, y)[i] == Offset(x + Steps(i, t.xStride), y)
      {
        if i > 0 {
          assert RowSweep(t, w, x, y)[i] == rest[i - 1];
        }
      }
    }
  }

  /** The strided rows from row y hold Columns(w) windows per strided row. */
  lemma {:induction false} StrideRowsLength(t: Tiling, h: nat, w: nat, y: nat)
    requires t.Admits(h, w)
    ensures |StrideRows(t, h, w, y)| == Steps(StrideCount(h - t.height - y, t.yStride), Columns(t, w))
    decreases h - y
  {
    if y + t.height < h {
      StrideCountStep(h - t.height - y, t.yStride);
      StrideRowsLength(t, h, w, y + t.yStride);
    }
  }

  /** The strided rows from row y form a grid: row k sits at y + k * yStride, and its j-th
      window, at index i = k * Columns(w) + j, at XCoord(j). */
  lemma {:induction false} StrideRowsAt(t: Tiling, h: nat, w: nat, y: nat, k: nat, j: nat, i: nat)
    requires t.Admits(h, w)
    requires k < StrideCount(h - t.height - y, t.yStride) && j < Columns(t, w)
    requires i == Steps(k, Columns(t, w)) + j
    ensures i < |StrideRows(t, h, w, y)|
    ensures StrideRows(t, h, w, y)[i] == Offset(XCoord(t, w, j), y + Steps(k, t.yStride))
    decreases h - y
  {
    StrideCountStep(h - t.height - y, t.yStride);
    var row := Row(t, w, y);
    var rest := StrideRows(t, h, w, y + t.yStride);
    assert StrideRows(t, h, w, y) == row + rest;
    assert |row| == Columns(t, w);
    if k == 0 {
      assert i == j;
      assert (row + rest)[i] == row[j];
    } else {
      var i' := i - Columns(t, w);
      assert i' == Steps(k - 1, Columns(t, w)) + j;
      StrideRowsAt(t, h, w, y + t.yStride, k - 1, j, i');
      assert (row + rest)[i] == rest[i'];
    }
  }

  /** The walk, as a grid: Rows(h) rows of Columns(w) windows. */
  lemma PositionsGrid(t: Tiling, h: nat, w: nat)
    requires t.Admits(h, w)
    ensures |Positions(t, h, w)| == Steps(Rows(t, h), Columns(t, w))
  {
    StrideRowsLength(t, h, w, 0);
  }

  /** The count formula: the walk visits Rows(h) * Columns(w) windows, where each factor
      counts the strided positions plus one edge position for a non-multiple dimension. */
  lemma PositionsCount(t: Tiling, h: nat, w: nat)
    requires t.Admits(h, w)
    ensures |Positions(t, h, w)| == Rows(t, h) * Columns(t, w)
  {
    PositionsGrid(t, h, w);
    StepsIsProduct(Rows(t, h), Columns(t, w));
  }

  /** Window j of strided row k is at index k * Columns(w) + j of the walk. */
  lemma StridedRowAt(t: Tiling, h: nat, w: nat, k: nat, j: nat)
    requires t.Admits(h, w)
    requires k < StrideRowCount(t, h) && j < Columns(t, w)
    ensures Steps(k, Columns(t, w)) + j < |Positions(t, h, w)|
    ensures Positions(t, h, w)[Steps(k, Columns(t, w)) + j] == Offset(XCoord(t, w, j), Steps(k, t.yStride))
  {
    var i := Steps(k, Columns(t, w)) + j;
    StrideRowsAt(t, h, w, 0, k, j, i);
    assert Positions(t, h, w) == StrideRows(t, h, w, 0) + BottomRow(t, h, w);
  }

  /** Window j of the bottom row, when present, follows all strided rows. */
  lemma BottomRowAt(t: Tiling, h: nat, w: nat, j: nat)
    requires t.Admits(h, w)
    requires h % t.height != 0 && j < Columns(t, w)
    ensures Steps(StrideRowCount(t, h), Columns(t, w)) + j < |Positions(t, h, w)|
    ensures Positions(t, h, w)[Steps(StrideRowCount(t, h), Columns(t, w)) + j] == Offset(XCoord(t, w, j), h - t.height)
  {
    StrideRowsLength(t, h, w, 0);
    var strided := StrideRows(t, h, w, 0);
    var bottom := Row(t, w, h - t.height);
    assert BottomRow(t, h, w) == bottom;
    assert Positions(t, h, w) == strided + bottom;
    assert |strided| == Steps(StrideRowCount(t, h), Columns(t, w));
    assert bottom[j] == Offset(XCoord(t, w, j), h - t.height);
    assert (strided + bottom)[|strided| + j] == bottom[j];
  }

  /** Row-major layout of the walk: window (k, j) is at index k * Columns(w) + j and sits at
      (XCoord(j), YCoord(k)). */
  lemma PositionsAt(t: Tiling, h: nat, w: nat, k: nat, j: nat)
    requires t.Admits(h, w)
    requires k < Rows(t, h) && j < Columns(t, w)
    ensures Steps(k, Columns(t, w)) + j < |Positions(t, h, w)|
    ensures Positions(t, h, w)[Steps(k, Columns(t, w)) + j] == Offset(XCoord(t, w, j), YCoord(t, h, k))
  {
    if k < StrideRowCount(t, h) {
      assert YCoord(t, h, k) == Steps(k, t.yStride);
      StridedRowAt(t, h, w, k, j);
    } else {
      assert k == StrideRowCount(t, h) && h % t.height != 0;
      assert YCoord(t, h, k) == h - t.height;
      BottomRowAt(t, h, w, j);
    }
  }

  /** Index form of `PositionsAt`: every index of the walk is some window (k, j) of the grid. */
  lemma PositionAt(t: Tiling, h: nat, w: nat, i: nat) returns (k: nat, j: nat)
    requires t.Admits(h, w)
    requires i < |Positions(t, h, w)|
    ensures k < Rows(t, h) && j < Columns(t, w) && i == Steps(k, Columns(t, w)) + j
    ensures Positions(t, h, w)[i] == Offset(XCoord(t, w, j), YCoord(t, h, k))
  {
    PositionsGrid(t, h, w);
    k, j := GridIndex(i, Rows(t, h), Columns(t, w));
    PositionsAt(t, h, w, k, j);
  }

  lemma XCoordStrict(t: Tiling, w: nat, j: nat)
    requires t.AdmitsWidth(w)
    ensures j < StrideCols(t, w) ==> XCoord(t, w, j) + t.width < w
  {
    StrideCountExact(w - t.width, t.xStride, j);
  }

  lemma YCoordStrict(t: Tiling, h: nat, k: nat)
    requires t.AdmitsHeight(h)
    ensures k < StrideRowCount(t, h) ==> YCoord(t, h, k) + t.height < h
  {
    StrideCountExact(h - t.height, t.yStride, k);
  }

  /** Columns move strictly rightwards along a row. */
  lemma XCoordIncreasing(t: Tiling, w: nat, j1: nat, j2: nat)
    requires t.AdmitsWidth(w)
    requires j1 < j2 < Columns(t, w)
    ensures XCoord(t, w, j1) < XCoord(t, w, j2)
  {
    XCoordStrict(t, w, j1);
    if j2 < StrideCols(t, w) {
      StepsStrict(j1, j2, t.xStride);
    }
  }

  /** Rows move strictly downwards. */
  lemma YCoordIncreasing(t: Tiling, h: nat, k1: nat, k2: nat)
    requires t.AdmitsHeight(h)
    requires k1 < k2 < Rows(t, h)
    ensures YCoord(t, h, k1) < YCoord(t, h, k2)
  {
    YCoordStrict(t, h, k1);
    if k2 < StrideRowCount(t, h) {
      StepsStrict(k1, k2, t.yStride);
    }
  }

  /** Raster order: each window comes strictly before every later one, so no corner repeats. */
  lemma RasterOrder(t: Tiling, h: nat, w: nat, i1: nat, i2: nat)
    requires t.Admits(h, w)
    requires i1 < i2 < |Positions(t, h, w)|
    ensures RasterBefore(Positions(t, h, w)[i1], Positions(t, h, w)[i2])
  {
    var k1, j1 := PositionAt(t, h, w, i1);
    var k2, j2 := PositionAt(t, h, w, i2);
    GridOrder(k1, j1, k2, j2, Columns(t, w));
    if k1 < k2 {
      YCoordIncreasing(t, h, k1, k2);
    } else {
      XCoordIncreasing(t, w, j1, j2);
    }
  }

  /** Where a window may sit: strided windows end strictly before the far edge, and a
      window touches the right (bottom) edge only as the edge window of a non-multiple
      width (height). */
  predicate Placed(t: Tiling, h: nat, w: nat, p: Offset)
    requires t.Valid()
  {
    && (p.x + t.width < w || (p.x + t.width == w && w % t.width != 0))
    && (p.y + t.height < h || (p.y + t.height == h && h % t.height != 0))
  }

  lemma PositionPlaced(t: Tiling, h: nat, w: nat, i: nat)
    requires t.Admits(h, w)
    requires i < |Positions(t, h, w)|
    ensures Placed(t, h, w, Positions(t, h, w)[i])
  {
    var k, j := PositionAt(t, h, w, i);
    XCoordStrict(t, w, j);
    YCoordStrict(t, h, k);
  }

  /** Every window of the walk is `Placed`; in particular it lies inside the image. */
  lemma PositionsPlaced(t: Tiling, h: nat, w: nat)
    requires t.Admits(h, w)
    ensures forall i :: 0 <= i < |Positions(t, h, w)| ==> Placed(t, h, w, Positions(t, h, w)[i])
  {
    forall i | 0 <= i < |Positions(t, h, w)|
      ensures Placed(t, h, w, Positions(t, h, w)[i])
    {
      PositionPlaced(t, h, w, i);
    }
  }

  /** Corollary of `PositionsPlaced`: every window fits in the image. */
  lemma PositionsFit(t: Tiling, h: nat, w: nat)
    requires t.Admits(h, w)
    ensures AllInside(Positions(t, h, w), t.height, t.width, h, w)
  {
    PositionsPlaced(t, h, w);
  }

  lemma HasStrideRow(t: Tiling, h: nat)
    requires t.AdmitsHeight(h)
    ensures StrideRowCount(t, h) > 0 <==> h > t.height
  {
    StrideCountExact(h - t.height, t.yStride, 0);
  }

  lemma HasStrideCol(t: Tiling, w: nat)
    requires t.AdmitsWidth(w)
    ensures StrideCols(t, w) > 0 <==> w > t.width
  {
    StrideCountExact(w - t.width, t.xStride, 0);
  }

  /** A window flush with the right edge is emitted iff w is not a multiple of width and
      there is at least one row (h > height). */
  lemma RightEdgeIff(t: Tiling, h: nat, w: nat)
    requires t.Admits(h, w)
    ensures (exists i :: 0 <= i < |Positions(t, h, w)| && Positions(t, h, w)[i].x + t.width == w)
            <==> (w % t.width != 0 && h > t.height)
  {
    var ps := Positions(t, h, w);
    if exists i :: 0 <= i < |ps| && ps[i].x + t.width == w {
      var i :| 0 <= i < |ps| && ps[i].x + t.width == w;
      PositionPlaced(t, h, w, i);
      EmptyIff(t, h, w);
      assert w % t.width != 0 && h != t.height;
    }
    if w % t.width != 0 && h > t.height {
      HasStrideRow(t, h);
      var j := StrideCols(t, w);
      assert 0 < Rows(t, h) && j < Columns(t, w);
      assert XCoord(t, w, j) == w - t.width;
      PositionsAt(t, h, w, 0, j);
      var i := Steps(0, Columns(t, w)) + j;
      assert i < |ps| && ps[i].x == w - t.width;
    }
  }

  /** A window flush with the bottom edge is emitted iff h is not a multiple of height and
      each row holds at least one window (w > width). */
  lemma BottomEdgeIff(t: Tiling, h: nat, w: nat)
    requires t.Admits(h, w)
    ensures (exists i :: 0 <= i < |Positions(t, h, w)| && Positions(t, h, w)[i].y + t.height == h)
            <==> (h % t.height != 0 && w > t.width)
  {
    var ps := Positions(t, h, w);
    if exists i :: 0 <= i < |ps| && ps[i].y + t.height == h {
      var i :| 0 <= i < |ps| && ps[i].y + t.height == h;
      PositionPlaced(t, h, w, i);
      EmptyIff(t, h, w);
      assert h % t.height != 0 && w != t.width;
    }
    if h % t.height != 0 && w > t.width {
      HasStrideCol(t, w);
      var k := StrideRowCount(t, h);
      assert k < Rows(t, h) && 0 < Columns(t, w);
      assert YCoord(t, h, k) == h - t.height;
      PositionsAt(t, h, w, k, 0);
      var i := Steps(k, Columns(t, w)) + 0;
      assert i < |ps| && ps[i].y == h - t.height;
    }
  }

  /** The walk is empty exactly when the image equals the window in some dimension. */
  lemma EmptyIff(t: Tiling, h: nat, w: nat)
    requires t.Admits(h, w)
    ensures |Positions(t, h, w)| == 0 <==> (h == t.height || w == t.width)
  {
    PositionsGrid(t, h, w);
    HasStrideRow(t, h);
    HasStrideCol(t, w);
    StepsZero(Rows(t, h), Columns(t, w));
    assert Rows(t, h) == 0 <==> h == t.height by {
      if h == t.height {
        assert h % t.height == 0;
      }
    }
    assert Columns(t, w) == 0 <==> w == t.width by {
      if w == t.width {
        assert w % t.width == 0;
      }
    }
  }

  /** When both dimensions are non-multiples, the bottom-right corner window is the last one
      visited. */
  lemma CornerIsLast(t: Tiling, h: nat, w: nat)
    requires t.Admits(h, w)
    requires h % t.height != 0 && w % t.width != 0
    ensures |Positions(t, h, w)| > 0
    ensures Positions(t, h, w)[|Positions(t, h, w)| - 1] == Offset(w - t.width, h - t.height)
  {
    PositionsGrid(t, h, w);
    var rows, cols := Rows(t, h), Columns(t, w);
    PositionsAt(t, h, w, rows - 1, cols - 1);
  }

  /** With exact multiples the strided sweep never reaches the far edge: when w > width and
      w % width == 0, no window starts right of lastX = (StrideCols(w) - 1) * xStride, and
      lastX + width is left of column w - 1. */
  lemma ColumnBandUncovered(t: Tiling, h: nat, w: nat)
    requires t.Admits(h, w)
    requires w > t.width && w % t.width == 0
    ensures StrideCols(t, w) > 0
    ensures Steps(StrideCols(t, w) - 1, t.xStride) + t.width < w
    ensures forall i :: 0 <= i < |Positions(t, h, w)| ==>
              Positions(t, h, w)[i].x <= Steps(StrideCols(t, w) - 1, t.xStride)
  {
    HasStrideCol(t, w);
    var last := StrideCols(t, w) - 1;
    XCoordStrict(t, w, last);
    forall i | 0 <= i < |Positions(t, h, w)|
      ensures Positions(t, h, w)[i].x <= Steps(last, t.xStride)
    {
      var k, j := PositionAt(t, h, w, i);
      StepsMonotone(j, last, t.xStride);
    }
  }

  /** The same for rows: when h > height and h % height == 0, no window starts below
      lastY = (StrideRowCount(h) - 1) * yStride, and lastY + height is above row h - 1. */
  lemma RowBandUncovered(t: Tiling, h: nat, w: nat)
    requires t.Admits(h, w)
    requires h > t.height && h % t.height == 0
    ensures StrideRowCount(t, h) > 0
    ensures Steps(StrideRowCount(t, h) - 1, t.yStride) + t.height < h
    ensures forall i :: 0 <= i < |Positions(t, h, w)| ==>
              Positions(t, h, w)[i].y <= Steps(StrideRowCount(t, h) - 1, t.yStride)
  {
    HasStrideRow(t, h);
    var last := StrideRowCount(t, h) - 1;
    YCoordStrict(t, h, last);
    forall i | 0 <= i < |Positions(t, h, w)|
      ensures Positions(t, h, w)[i].y <= Steps(last, t.yStride)
    {
      var k, j := PositionAt(t, h, w, i);
      StepsMonotone(k, last, t.yStride);
    }
  }

  /** Column c is under the j-th window of every row, for some j, when the width is a
      non-multiple and the stride does not exceed the window. */
  lemma ColumnHit(t: Tiling, w: nat, c: nat) returns (j: nat)
    requires t.AdmitsWidth(w)
    requires w % t.width != 0 && t.xStride <= t.width && c < w
    ensures j < Columns(t, w) && XCoord(t, w, j) <= c < XCoord(t, w, j) + t.width
  {
    if c >= w - t.width {
      j := StrideCols(t, w);
    } else {
      j := StepsFloor(c, t.xStride);
      StrideCountExact(w - t.width, t.xStride, j);
    }
  }

  /** Row r is under the k-th row of windows, for some k, when the height is a non-multiple
      and the stride does not exceed the window. */
  lemma RowHit(t: Tiling, h: nat, r: nat) returns (k: nat)
    requires t.AdmitsHeight(h)
    requires h % t.height != 0 && t.yStride <= t.height && r < h
    ensures k < Rows(t, h) && YCoord(t, h, k) <= r < YCoord(t, h, k) + t.height
  {
    if r >= h - t.height {
      k := StrideRowCount(t, h);
    } else {
      k := StepsFloor(r, t.yStride);
      StrideCountExact(h - t.height, t.yStride, k);
    }
  }

  /** Under the conditions of `FullCoverage`, pixel (r, c) lies under window (k, j) of the
      grid, where row r meets row of windows k and column c meets column j. */
  lemma PixelCovered(t: Tiling, h: nat, w: nat, r: nat, c: nat)
    requires t.Admits(h, w)
    requires h % t.height != 0 && w % t.width != 0
    requires t.xStride <= t.width && t.yStride <= t.height
    requires r < h && c < w
    ensures Covered(t, h, w, r, c)
  {
    var k := RowHit(t, h, r);
    var j := ColumnHit(t, w, c);
    PositionsAt(t, h, w, k, j);
    var i := Steps(k, Columns(t, w)) + j;
    assert Covers(Positions(t, h, w)[i], t.height, t.width, r, c);
  }

  /** When neither dimension is a multiple of the window and the strides do not exceed
      the window, every pixel is under some window. */
  lemma FullCoverage(t: Tiling, h: nat, w: nat)
    requires t.Admits(h, w)
    requires h % t.height != 0 && w % t.width != 0
    requires t.xStride <= t.width && t.yStride <= t.height
    ensures forall r, c :: 0 <= r < h && 0 <= c < w ==> Covered(t, h, w, r, c)
  {
    forall r, c | 0 <= r < h && 0 <= c < w
      ensures Covered(t, h, w, r, c)
    {
      PixelCovered(t, h, w, r, c);
    }
  }
}

=== FILE: images.dfy ===
/**
 Images as row-major grids of pixel values, with the two window operations the
 tiler and the merger use: reading a window (`image[y:y+height, x:x+width]`) and
 overwriting one (`image[y:y+height, x:x+width, :] = patch`).

 A pixel is one `int`: the channel axis is carried along unchanged by every slice,
 so it is folded into the pixel value.
 */
module Images {
  import opened Geometry

  /** Rows of pixels, top to bottom. */
  type Image = seq<seq<int>>

  /** img has h rows of w pixels. */
  predicate IsImage(img: Image, h: nat, w: nat) {
    |img| == h && forall r :: 0 <= r < h ==> |img[r]| == w
  }

  /** The window at p of the given size lies inside img. */
  predicate Encloses(img: Image, p: Offset, height: nat, width: nat) {
    && p.y + height <= |img|
    && forall r :: p.y <= r < p.y + height ==> p.x + width <= |img[r]|
  }

  /** A freshly allocated all-zero h x w buffer. */
  function Zeros(h: nat, w: nat): (img: Image)
    ensures IsImage(img, h, w)
    ensures forall r, c :: 0 <= r < h && 0 <= c < w ==> img[r][c] == 0
  {
    seq(h, _ => seq(w, _ => 0))
  }

  /** patch holds exactly the pixels of the height x width window of img at p. */
  predicate WindowOf(patch: Image, img: Image, p: Offset, height: nat, width: nat) {
    && IsImage(patch, height, width)
    && Encloses(img, p, height, width)
    && forall r, c {:trigger patch[r][c]} :: 0 <= r < height && 0 <= c < width ==> patch[r][c] == img[p.y + r][p.x + c]
  }

  /** A window read at p holds, at pixel (r, c) of the image it covers, that image pixel. */
  lemma WindowPixel(patch: Image, img: Image, p: Offset, height: nat, width: nat, r: int, c: int)
    requires WindowOf(patch, img, p, height, width) && Covers(p, height, width, r, c)
    ensures 0 <= r < |img| && 0 <= c < |img[r]|
    ensures patch[r - p.y][c - p.x] == img[r][c]
  {
    assert patch[r - p.y][c - p.x] == img[p.y + (r - p.y)][p.x + (c - p.x)];
  }

  /** Reads the height x width window whose top-left corner is p. */
  function Crop(img: Image, p: Offset, height: nat, width: nat): (patch: Image)
    requires Encloses(img, p, height, width)
    ensures WindowOf(patch, img, p, height, width)
  {
    seq(height, r requires 0 <= r < height => img[p.y + r][p.x .. p.x + width])
  }

  /** Overwrites columns x .. x + |segment| of one row with segment. */
  function SpliceRow(row: seq<int>, x: nat, segment: seq<int>): (res: seq<int>)
    requires x + |segment| <= |row|
    ensures |res| == |row|
    ensures forall c :: 0 <= c < |row| ==>
              res[c] == if x <= c < x + |segment| then segment[c - x] else row[c]
  {
    row[..x] + segment + row[x + |segment|..]
  }

  /** Overwrites the window at p with patch; every pixel outside the window keeps its value. */
  function Paste(canvas: Image, p: Offset, patch: Image, height: nat, width: nat): (res: Image)
    requires IsImage(patch, height, width) && Encloses(canvas, p, height, width)
    ensures |res| == |canvas|
    ensures forall r :: 0 <= r < |res| ==> |res[r]| == |canvas[r]|
    ensures forall r, c {:trigger res[r][c]} :: 0 <= r < |canvas| && 0 <= c < |canvas[r]| ==>
              res[r][c] == if Covers(p, height, width, r, c) then patch[r - p.y][c - p.x] else canvas[r][c]
  {
    seq(|canvas|, r requires 0 <= r < |canvas| =>
      if p.y <= r < p.y + height then SpliceRow(canvas[r], p.x, patch[r - p.y]) else canvas[r])
  }

  /** Pixel (r, c) after a paste: the patch's pixel inside the window, the canvas's outside. */
  lemma PastePixel(canvas: Image, p: Offset, patch: Image, height: nat, width: nat, r: nat, c: nat)
    requires IsImage(patch, height, width) && Encloses(canvas, p, height, width)
    requires r < |canvas| && c < |canvas[r]|
    ensures Paste(canvas, p, patch, height, width)[r][c] ==
              if Covers(p, height, width, r, c) then patch[r - p.y][c - p.x] else canvas[r][c]
  {
  }

  /** The windows of img at the corners ps, in order. */
  function CropAll(img: Image, h: nat, w: nat, ps: seq<Offset>, height: nat, width: nat): (batch: seq<Image>)
    requires IsImage(img, h, w) && AllInside(ps, height, width, h, w)
    ensures |batch| == |ps|
    ensures forall i :: 0 <= i < |batch| ==> WindowOf(batch[i], img, ps[i], height, width)
  {
    seq(|ps|, i requires 0 <= i < |ps| => Crop(img, ps[i], height, width))
  }

  /** Entry n of the batch is the window read at ps[n]. */
  lemma CropAllAt(img: Image, h: nat, w: nat, ps: seq<Offset>, n: nat, height: nat, width: nat)
    requires IsImage(img, h, w) && AllInside(ps, height, width, h, w) && n < |ps|
    ensures Encloses(img, ps[n], height, width)
    ensures CropAll(img, h, w, ps, height, width)[n] == Crop(img, ps[n], height, width)
  {
  }

  /** Extending a prefix of a sequence by its next element. */
  lemma PrefixSnoc<T>(s: seq<T>, n: nat)
    requires n < |s|
    ensures s[..n + 1] == s[..n] + [s[n]]
  {
  }

  /** Two images of the same shape that agree on every pixel are equal. */
  lemma SameImage(a: Image, b: Image, h: nat, w: nat)
    requires IsImage(a, h, w) && IsImage(b, h, w)
    requires forall r, c :: 0 <= r < h && 0 <= c < w ==> a[r][c] == b[r][c]
    ensures a == b
  {
    forall r | 0 <= r < h
      ensures a[r] == b[r]
    {
      assert forall c :: 0 <= c < w ==> a[r][c] == b[r][c];
    }
  }

  /** Row r of a window is the slice of image row p.y + r under it. */
  lemma CropRow(img: Image, p: Offset, height: nat, width: nat, r: nat)
    requires Encloses(img, p, height, width) && r < height
    ensures Crop(img, p, height, width)[r] == img[p.y + r][p.x .. p.x + width]
  {
  }

  /** Row p.y + r after a paste is the old row with patch row r spliced in at column p.x. */
  lemma PasteRow(canvas: Image, p: Offset, patch: Image, height: nat, width: nat, r: nat)
    requires IsImage(patch, height, width) && Encloses(canvas, p, height, width) && r < height
    ensures Paste(canvas, p, patch, height, width)[p.y + r] == SpliceRow(canvas[p.y + r], p.x, patch[r])
  {
  }

  /** Reading back the columns just spliced into a row returns the segment. */
  lemma SpliceRowSlice(row: seq<int>, x: nat, segment: seq<int>)
    requires x + |segment| <= |row|
    ensures SpliceRow(row, x, segment)[x .. x + |segment|] == segment
  {
    var prefix := row[..x];
    assert |prefix| == x;
    assert (prefix + segment + row[x + |segment|..])[x .. x + |segment|] == segment;
  }

  /** Reading back a window just written returns the patch that was written. */
  lemma CropOfPaste(canvas: Image, p: Offset, patch: Image, height: nat, width: nat)
    requires IsImage(patch, height, width) && Encloses(canvas, p, height, width)
    ensures Encloses(Paste(canvas, p, patch, height, width), p, height, width)
    ensures Crop(Paste(canvas, p, patch, height, width), p, height, width) == patch
  {
    var pasted := Paste(canvas, p, patch, height, width);
    assert Encloses(pasted, p, height, width);
    var back := Crop(pasted, p, height, width);
    forall r | 0 <= r < height
      ensures back[r] == patch[r]
    {
      CropRow(pasted, p, height, width, r);
      PasteRow(canvas, p, patch, height, width, r);
      SpliceRowSlice(canvas[p.y + r], p.x, patch[r]);
    }
    assert back == patch;
  }

  /** Writing a window with what it already holds changes nothing. */
  lemma PasteOfCrop(img: Image, p: Offset, height: nat, width: nat, h: nat, w: nat)
    requires IsImage(img, h, w) && Encloses(img, p, height, width)
    ensures Paste(img, p, Crop(img, p, height, width), height, width) == img
  {
    var patch := Crop(img, p, height, width);
    var again := Paste(img, p, patch, height, width);
    forall r, c | 0 <= r < h && 0 <= c < w
      ensures again[r][c] == img[r][c]
    {
      if Covers(p, height, width, r, c) {
        assert again[r][c] == patch[r - p.y][c - p.x];
      }
    }
    SameImage(again, img, h, w);
  }
}

=== FILE: merger.dfy ===
/**
 `SRCNN.merge`: the predicted windows are written, one after the other, onto an all-zero
 canvas of the input image's size, at the corners of the same walk `SRCNN.split` uses.
 `Merge` is that sequence of writes as a left fold; `MergeLoop` follows the nested
 loops of `SRCNN.merge` and is proved to compute the same result.

 `SRCNN.merge` raises an exception when the predictions run out (`pred_images[index]`
 past the end) or when a prediction does not have the window's shape (the slice
 assignment); both become a `MergeError` naming the offending index. Predictions
 beyond the last window are never read.
 */
module Merger {
  import opened Outcomes
  import opened Strides
  import opened Geometry
  import opened Images
  import opened Tiler

  datatype MergeError =
    | MissingPrediction(index: nat)     // fewer predictions than windows
    | MisshapenPrediction(index: nat)   // a prediction is not height x width

  /** Prediction k exists and has the window's shape. */
  predicate Fits(t: Tiling, preds: seq<Image>, k: nat) {
    k < |preds| && IsImage(preds[k], t.height, t.width)
  }

  /** Writes predictions i, i+1, ... at the corners ps[i], ps[i+1], ... onto canvas,
      stopping at the first prediction that is missing or misshapen. */
  function PasteFrom(t: Tiling, canvas: Image, h: nat, w: nat, preds: seq<Image>, ps: seq<Offset>, i: nat)
    : (res: Result<Image, MergeError>)
    requires IsImage(canvas, h, w) && AllInside(ps, t.height, t.width, h, w) && i <= |ps|
    ensures res.Ok? ==> IsImage(res.value, h, w)
    decreases |ps| - i
  {
    if i == |ps| then Ok(canvas)
    else if i >= |preds| then Err(MissingPrediction(i))
    else if !IsImage(preds[i], t.height, t.width) then Err(MisshapenPrediction(i))
    else PasteFrom(t, Paste(canvas, ps[i], preds[i], t.height, t.width), h, w, preds, ps, i + 1)
  }

  /** Writing from prediction i on succeeds exactly when predictions i .. |ps| - 1 all exist
      and are well shaped; otherwise the error names the first one that is not, as missing
      exactly when it lies past the end of preds. */
  lemma {:induction false} PasteFromOutcome(t: Tiling, canvas: Image, h: nat, w: nat, preds: seq<Image>,
                                            ps: seq<Offset>, i: nat)
    requires IsImage(canvas, h, w) && AllInside(ps, t.height, t.width, h, w) && i <= |ps|
    ensures var res := PasteFrom(t, canvas, h, w, preds, ps, i);
            && (res.Ok? <==> forall k :: i <= k < |ps| ==> Fits(t, preds, k))
            && (res.Err? ==>
                  && i <= res.error.index < |ps|
                  && !Fits(t, preds, res.error.index)
                  && (forall k :: i <= k < res.error.index ==> Fits(t, preds, k))
                  && (res.error.MissingPrediction? <==> res.error.index >= |preds|))
    decreases |ps| - i
  {
    if i < |ps| {
      if !Fits(t, preds, i) {
        assert !Fits(t, preds, i);
      } else {
        PasteFromOutcome(t, Paste(canvas, ps[i], preds[i], t.height, t.width), h, w, preds, ps, i + 1);
      }
    }
  }

  /** The outcome of writing every prediction from the first: success exactly when there
      are enough predictions and all of them up to the last corner are well shaped;
      otherwise the error names the first prediction that is missing (which is then the
      index |preds|) or misshapen. */
  lemma FoldOutcome(t: Tiling, canvas: Image, h: nat, w: nat, preds: seq<Image>, ps: seq<Offset>)
    requires IsImage(canvas, h, w) && AllInside(ps, t.height, t.width, h, w)
    ensures var res := PasteFrom(t, canvas, h, w, preds, ps, 0);
            && (res.Ok? <==> |preds| >= |ps| && forall k :: 0 <= k < |ps| ==> IsImage(preds[k], t.height, t.width))
            && (res.Err? && res.error.MissingPrediction? ==>
                  && res.error.index == |preds| < |ps|
                  && forall k :: 0 <= k < |preds| ==> IsImage(preds[k], t.height, t.width))
            && (res.Err? && res.error.MisshapenPrediction? ==>
                  && res.error.index < |preds| && res.error.index < |ps|
                  && !IsImage(preds[res.error.index], t.height, t.width)
                  && forall k :: 0 <= k < res.error.index ==> IsImage(preds[k], t.height, t.width))
  {
    PasteFromOutcome(t, canvas, h, w, preds, ps, 0);
    var res := PasteFrom(t, canvas, h, w, preds, ps, 0);
    assert !Fits(t, preds, |preds|);
    if res.Ok? {
      forall k | 0 <= k < |ps| ensures IsImage(preds[k], t.height, t.width) {
        assert Fits(t, preds, k);
      }
    } else {
      var e := res.error.index;
      forall k | 0 <= k < e ensures k < |preds| && IsImage(preds[k], t.height, t.width) {
        assert Fits(t, preds, k);
      }
    }
  }

  /** The merged h x w image, or the error `SRCNN.merge` raises. */
  function Merge(t: Tiling, preds: seq<Image>, h: nat, w: nat): (res: Result<Image, MergeError>)
    requires t.Admits(h, w)
    ensures res.Ok? <==>
              |preds| >= |Positions(t, h, w)| &&
              forall k :: 0 <= k < |Positions(t, h, w)| ==> IsImage(preds[k], t.height, t.width)
    ensures res.Ok? ==> IsImage(res.value, h, w)
    ensures res.Err? && res.error.MissingPrediction? ==>
              && res.error.index == |preds| < |Positions(t, h, w)|
              && forall k :: 0 <= k < |preds| ==> IsImage(preds[k], t.height, t.width)
    ensures res.Err? && res.error.MisshapenPrediction? ==>
              && res.error.index < |preds| && res.error.index < |Positions(t, h, w)|
              && !IsImage(preds[res.error.index], t.height, t.width)
              && forall k :: 0 <= k < res.error.index ==> IsImage(preds[k], t.height, t.width)
  {
    PositionsFit(t, h, w);
    FoldOutcome(t, Zeros(h, w), h, w, preds, Positions(t, h, w));
    PasteFrom(t, Zeros(h, w), h, w, preds, Positions(t, h, w), 0)
  }

  /** The last of the corners ps[lo..] whose window covers pixel (r, c), if any. */
  function LastCover(ps: seq<Offset>, height: nat, width: nat, lo: nat, r: int, c: int): (res: Option<nat>)
    requires lo <= |ps|
    ensures res.Some? ==>
              && lo <= res.value < |ps|
              && Covers(ps[res.value], height, width, r, c)
              && forall k :: res.value < k < |ps| ==> !Covers(ps[k], height, width, r, c)
    ensures res.None? ==> forall k :: lo <= k < |ps| ==> !Covers(ps[k], height, width, r, c)
    decreases |ps| - lo
  {
    if lo == |ps| then None
    else
      var later := LastCover(ps, height, width, lo + 1, r, c);
      if later.Some? then later
      else if Covers(ps[lo], height, width, r, c) then Some(lo)
      else None
  }

  /** After writing predictions i, i+1, ... onto canvas, pixel (r, c) holds the pixel of
      the last prediction whose window covers it, or the canvas value when no window from
      i on covers it. */
  ghost predicate LastWriteFrom(t: Tiling, canvas: Image, h: nat, w: nat, preds: seq<Image>,
                                ps: seq<Offset>, i: nat, r: nat, c: nat)
    requires IsImage(canvas, h, w) && AllInside(ps, t.height, t.width, h, w) && i <= |ps|
    requires (forall k :: i <= k < |ps| ==> Fits(t, preds, k)) && r < h && c < w
  {
    var res := PasteFrom(t, canvas, h, w, preds, ps, i);
    && res.Ok?
    && match LastCover(ps, t.height, t.width, i, r, c)
       case None => res.value[r][c] == canvas[r][c]
       case Some(k) => assert Fits(t, preds, k); res.value[r][c] == preds[k][r - ps[k].y][c - ps[k].x]
  }

  /** Last write wins, for the fold, by induction on the walk from its end. */
  lemma {:induction false} PasteFromPixel(t: Tiling, canvas: Image, h: nat, w: nat, preds: seq<Image>,
                                          ps: seq<Offset>, i: nat, r: nat, c: nat)
    requires IsImage(canvas, h, w) && AllInside(ps, t.height, t.width, h, w) && i <= |ps|
    requires (forall k :: i <= k < |ps| ==> Fits(t, preds, k)) && r < h && c < w
    ensures LastWriteFrom(t, canvas, h, w, preds, ps, i, r, c)
    decreases |ps| - i
  {
    if i < |ps| {
      assert Fits(t, preds, i);
      var next := Paste(canvas, ps[i], preds[i], t.height, t.width);
      PasteFromPixel(t, next, h, w, preds, ps, i + 1, r, c);
      PasteFromPixelStep(t, canvas, h, w, preds, ps, i, r, c);
    }
  }

  /** The inductive step of `PasteFromPixel`: prediction i written first is overwritten at
      (r, c) by any later window covering the pixel. */
  lemma PasteFromPixelStep(t: Tiling, canvas: Image, h: nat, w: nat, preds: seq<Image>,
                           ps: seq<Offset>, i: nat, r: nat, c: nat)
    requires IsImage(canvas, h, w) && AllInside(ps, t.height, t.width, h, w) && i < |ps|
    requires (forall k :: i <= k < |ps| ==> Fits(t, preds, k)) && r < h && c < w
    requires Fits(t, preds, i)
    requires LastWriteFrom(t, Paste(canvas, ps[i], preds[i], t.height, t.width), h, w, preds, ps, i + 1, r, c)
    ensures LastWriteFrom(t, canvas, h, w, preds, ps, i, r, c)
  {
    var next := Paste(canvas, ps[i], preds[i], t.height, t.width);
    assert PasteFrom(t, canvas, h, w, preds, ps, i) == PasteFrom(t, next, h, w, preds, ps, i + 1);
    PastePixel(canvas, ps[i], preds[i], t.height, t.width, r, c);
  }

  /** Last write wins: pixel (r, c) of a successful merge is the matching pixel of the
      last prediction, in walk order, whose window covers it, and 0 when no window does. */
  lemma MergeLastWriteWins(t: Tiling, preds: seq<Image>, h: nat, w: nat, r: nat, c: nat)
    requires t.Admits(h, w) && Merge(t, preds, h, w).Ok? && r < h && c < w
    ensures var ps := Positions(t, h, w);
            var out := Merge(t, preds, h, w).value;
            match LastCover(ps, t.height, t.width, 0, r, c)
            case None => out[r][c] == 0
            case Some(k) => out[r][c] == preds[k][r - ps[k].y][c - ps[k].x]
  {
    PositionsFit(t, h, w);
    PasteFromOutcome(t, Zeros(h, w), h, w, preds, Positions(t, h, w), 0);
    PasteFromPixel(t, Zeros(h, w), h, w, preds, Positions(t, h, w), 0, r, c);
  }

  /** Windows read from an image all have the window's shape, so merging them succeeds. */
  lemma WindowsMerge(t: Tiling, img: Image, h: nat, w: nat, preds: seq<Image>)
    requires t.Admits(h, w) && IsImage(img, h, w)
    requires |preds| >= |Positions(t, h, w)|
    requires forall k {:trigger preds[k]} :: 0 <= k < |Positions(t, h, w)| ==>
               WindowOf(preds[k], img, Positions(t, h, w)[k], t.height, t.width)
    ensures Merge(t, preds, h, w).Ok?
  {
    forall k | 0 <= k < |Positions(t, h, w)|
      ensures IsImage(preds[k], t.height, t.width)
    {
      assert WindowOf(preds[k], img, Positions(t, h, w)[k], t.height, t.width);
    }
  }

  /** One pixel of a merge of windows read from img: the image's pixel where some window
      covers it, 0 elsewhere. */
  lemma MergedPixelOfWindows(t: Tiling, img: Image, h: nat, w: nat, preds: seq<Image>, r: nat, c: nat)
    requires t.Admits(h, w) && IsImage(img, h, w)
    requires |preds| >= |Positions(t, h, w)|
    requires forall k {:trigger preds[k]} :: 0 <= k < |Positions(t, h, w)| ==>
               WindowOf(preds[k], img, Positions(t, h, w)[k], t.height, t.width)
    requires r < h && c < w
    ensures Merge(t, preds, h, w).Ok?
    ensures Merge(t, preds, h, w).value[r][c] == if Covered(t, h, w, r, c) then img[r][c] else 0
  {
    WindowsMerge(t, img, h, w, preds);
    MergeLastWriteWins(t, preds, h, w, r, c);
    CoveredIffLastCover(t, h, w, r, c);
    LastCoverOfWindows(Positions(t, h, w), preds, img, t.height, t.width, r, c);
  }

  /** When every prediction is the window of img at its corner, the last window covering a
      pixel holds that image pixel there. */
  lemma LastCoverOfWindows(ps: seq<Offset>, preds: seq<Image>, img: Image, height: nat, width: nat, r: int, c: int)
    requires |preds| >= |ps|
    requires forall k {:trigger preds[k]} :: 0 <= k < |ps| ==> WindowOf(preds[k], img, ps[k], height, width)
    ensures match LastCover(ps, height, width, 0, r, c)
            case None => true
            case Some(k) => WindowOf(preds[k], img, ps[k], height, width) && 0 <= r < |img| && 0 <= c < |img[r]|
                            && preds[k][r - ps[k].y][c - ps[k].x] == img[r][c]
  {
    match LastCover(ps, height, width, 0, r, c)
    case Some(k) =>
      assert WindowOf(preds[k], img, ps[k], height, width);
      WindowPixel(preds[k], img, ps[k], height, width, r, c);
    case None =>
  }

  /** A pixel is covered by the walk exactly when some corner of the walk is its last cover. */
  lemma CoveredIffLastCover(t: Tiling, h: nat, w: nat, r: int, c: int)
    requires t.Admits(h, w)
    ensures Covered(t, h, w, r, c) <==> LastCover(Positions(t, h, w), t.height, t.width, 0, r, c).Some?
  {
    var ps := Positions(t, h, w);
    var last := LastCover(ps, t.height, t.width, 0, r, c);
    if last.Some? {
      assert Covers(ps[last.value], t.height, t.width, r, c);
    }
  }

  /** Merging windows read from one image restores that image on every pixel some window
      covers and leaves 0 everywhere else; predictions past the last window are ignored. */
  lemma MergeOfWindows(t: Tiling, img: Image, h: nat, w: nat, preds: seq<Image>)
    requires t.Admits(h, w) && IsImage(img, h, w)
    requires |preds| >= |Positions(t, h, w)|
    requires forall k {:trigger preds[k]} :: 0 <= k < |Positions(t, h, w)| ==>
               WindowOf(preds[k], img, Positions(t, h, w)[k], t.height, t.width)
    ensures Merge(t, preds, h, w).Ok?
    ensures forall r, c :: 0 <= r < h && 0 <= c < w ==>
              Merge(t, preds, h, w).value[r][c] == if Covered(t, h, w, r, c) then img[r][c] else 0
  {
    forall r, c | 0 <= r < h && 0 <= c < w
      ensures Merge(t, preds, h, w).value[r][c] == if Covered(t, h, w, r, c) then img[r][c] else 0
    {
      MergedPixelOfWindows(t, img, h, w, preds, r, c);
    }
  }

  /** Round trip: merging the unchanged batch of split restores every covered pixel of the
      image and zeroes the rest. */
  lemma SplitMergeRoundTrip(t: Tiling, img: Image, h: nat, w: nat)
    requires t.Admits(h, w) && IsImage(img, h, w)
    ensures Merge(t, Split(t, img, h, w), h, w).Ok?
    ensures forall r, c :: 0 <= r < h && 0 <= c < w ==>
              Merge(t, Split(t, img, h, w), h, w).value[r][c] == if Covered(t, h, w, r, c) then img[r][c] else 0
  {
    MergeOfWindows(t, img, h, w, Split(t, img, h, w));
  }

  /** When neither dimension is a multiple of the window and the strides do not exceed it,
      split followed by merge gives back the image itself. */
  lemma SplitMergeIdentity(t: Tiling, img: Image, h: nat, w: nat)
    requires t.Admits(h, w) && IsImage(img, h, w)
    requires h % t.height != 0 && w % t.width != 0
    requires t.xStride <= t.width && t.yStride <= t.height
    ensures Merge(t, Split(t, img, h, w), h, w) == Ok(img)
  {
    SplitMergeRoundTrip(t, img, h, w);
    FullCoverage(t, h, w);
    SameImage(Merge(t, Split(t, img, h, w), h, w).value, img, h, w);
  }

  /** Exact multiple width: columns right of the last strided window, a band that is never
      empty, stay 0 in every merge. */
  lemma MergeColumnBandZero(t: Tiling, preds: seq<Image>, h: nat, w: nat)
    requires t.Admits(h, w) && Merge(t, preds, h, w).Ok?
    requires w > t.width && w % t.width == 0
    ensures StrideCols(t, w) > 0
    ensures Steps(StrideCols(t, w) - 1, t.xStride) + t.width < w
    ensures forall r, c :: 0 <= r < h && Steps(StrideCols(t, w) - 1, t.xStride) + t.width <= c < w ==>
              Merge(t, preds, h, w).value[r][c] == 0
  {
    ColumnBandUncovered(t, h, w);
    var band := Steps(StrideCols(t, w) - 1, t.xStride) + t.width;
    forall r, c | 0 <= r < h && band <= c < w
      ensures Merge(t, preds, h, w).value[r][c] == 0
    {
      MergeLastWriteWins(t, preds, h, w, r, c);
    }
  }

  /** Exact multiple height: rows below the last strided row of windows, a band that is
      never empty, stay 0 in every merge. */
  lemma MergeRowBandZero(t: Tiling, preds: seq<Image>, h: nat, w: nat)
    requires t.Admits(h, w) && Merge(t, preds, h, w).Ok?
    requires h > t.height && h % t.height == 0
    ensures StrideRowCount(t, h) > 0
    ensures Steps(StrideRowCount(t, h) - 1, t.yStride) + t.height < h
    ensures forall r, c :: Steps(StrideRowCount(t, h) - 1, t.yStride) + t.height <= r < h && 0 <= c < w ==>
              Merge(t, preds, h, w).value[r][c] == 0
  {
    RowBandUncovered(t, h, w);
    var band := Steps(StrideRowCount(t, h) - 1, t.yStride) + t.height;
    forall r, c | band <= r < h && 0 <= c < w
      ensures Merge(t, preds, h, w).value[r][c] == 0
    {
      MergeLastWriteWins(t, preds, h, w, r, c);
    }
  }

  /** Merge consumes as many predictions as split produces windows: with well-shaped
      predictions it succeeds exactly when there are at least |Split| of them, and
      otherwise fails at index |preds|, the first one missing. */
  lemma MergeConsumesSplitCount(t: Tiling, img: Image, h: nat, w: nat, preds: seq<Image>)
    requires t.Admits(h, w) && IsImage(img, h, w)
    requires forall k :: 0 <= k < |preds| ==> IsImage(preds[k], t.height, t.width)
    ensures Merge(t, preds, h, w).Ok? <==> |preds| >= |Split(t, img, h, w)|
    ensures |preds| < |Split(t, img, h, w)| ==> Merge(t, preds, h, w) == Err(MissingPrediction(|preds|))
  {
  }

  /** Predictions past the last corner are never read. */
  lemma {:induction false} PasteFromIgnoresExtra(t: Tiling, canvas: Image, h: nat, w: nat,
                                                 preds: seq<Image>, extra: seq<Image>, ps: seq<Offset>, i: nat)
    requires IsImage(canvas, h, w) && AllInside(ps, t.height, t.width, h, w) && i <= |ps| <= |preds|
    ensures PasteFrom(t, canvas, h, w, preds + extra, ps, i) == PasteFrom(t, canvas, h, w, preds, ps, i)
    decreases |ps| - i
  {
    if i < |ps| {
      assert (preds + extra)[i] == preds[i];
      if IsImage(preds[i], t.height, t.width) {
        var next := Paste(canvas, ps[i], preds[i], t.height, t.width);
        PasteFromIgnoresExtra(t, next, h, w, preds, extra, ps, i + 1);
      }
    }
  }

  /** Merge reads exactly one prediction per window: appending further predictions to a
      long enough batch changes nothing. */
  lemma MergeIgnoresExtra(t: Tiling, preds: seq<Image>, extra: seq<Image>, h: nat, w: nat)
    requires t.Admits(h, w) && |preds| >= |Positions(t, h, w)|
    ensures Merge(t, preds + extra, h, w) == Merge(t, preds, h, w)
  {
    PositionsFit(t, h, w);
    PasteFromIgnoresExtra(t, Zeros(h, w), h, w, preds, extra, Positions(t, h, w), 0);
  }

  /** An image no larger than the window in some dimension has no windows at all, so
      merge returns the zero canvas whatever the predictions. */
  lemma MergeDegenerate(t: Tiling, preds: seq<Image>, h: nat, w: nat)
    requires t.Admits(h, w) && (h == t.height || w == t.width)
    ensures Merge(t, preds, h, w) == Ok(Zeros(h, w))
  {
    EmptyIff(t, h, w);
  }

  // ---------------------------------------------------------------------------
  // The loops of merge

  /** `merge_image[window at p] = pred_images[index]; index += 1`: fails when prediction n
      is missing or misshapen, and otherwise writes it. `goal` is the result of the whole
      fold, which writing prediction n must not change. */
  method MergeStep(t: Tiling, preds: seq<Image>, h: nat, w: nat, ghost ps: seq<Offset>,
                   ghost goal: Result<Image, MergeError>, canvas: Image, n: nat, p: Offset)
    returns (err: Option<MergeError>, canvas': Image)
    requires IsImage(canvas, h, w) && AllInside(ps, t.height, t.width, h, w) && n < |ps| && ps[n] == p
    requires PasteFrom(t, canvas, h, w, preds, ps, n) == goal
    ensures err.Some? ==> goal == Err(err.value)
    ensures err.None? ==> IsImage(canvas', h, w) && PasteFrom(t, canvas', h, w, preds, ps, n + 1) == goal
  {
    if n >= |preds| {
      return Some(MissingPrediction(n)), canvas;
    }
    var patch := preds[n];
    if !IsImage(patch, t.height, t.width) {
      return Some(MisshapenPrediction(n)), canvas;
    }
    canvas' := Paste(canvas, p, patch, t.height, t.width);
    err := None;
  }

  /** The strided writes of one row of merge: `while x + width < w`, from column 0. */
  method MergeSweep(t: Tiling, preds: seq<Image>, h: nat, w: nat, y: nat, ghost ps: seq<Offset>,
                    ghost tail: seq<Offset>, ghost goal: Result<Image, MergeError>, canvas: Image, n: nat)
    returns (err: Option<MergeError>, canvas': Image, n': nat)
    requires t.Valid() && IsImage(canvas, h, w) && AllInside(ps, t.height, t.width, h, w)
    requires n <= |ps| && ps[n..] == RowSweep(t, w, 0, y) + tail
    requires PasteFrom(t, canvas, h, w, preds, ps, n) == goal
    ensures err.Some? ==> goal == Err(err.value)
    ensures err.None? ==>
              && n <= n' <= |ps| && IsImage(canvas', h, w) && ps[n'..] == tail
              && PasteFrom(t, canvas', h, w, preds, ps, n') == goal
  {
    canvas', n' := canvas, n;
    var x: nat := 0;
    while x + t.width < w
      invariant n <= n' <= |ps| && IsImage(canvas', h, w)
      invariant ps[n'..] == RowSweep(t, w, x, y) + tail
      invariant PasteFrom(t, canvas', h, w, preds, ps, n') == goal
      decreases w - x
    {
      SweepStep(t, w, x, y, ps, n', tail);
      ghost var unvisited := RowSweep(t, w, x + t.xStride, y) + tail;
      err, canvas' := MergeStep(t, preds, h, w, ps, goal, canvas', n', Offset(x, y));
      if err.Some? {
        return;
      }
      n' := n' + 1;
      x := x + t.xStride;
      assert ps[n'..] == unvisited;
    }
    SweepEnd(t, w, x, y, ps, n', tail);
    err := None;
  }

  /** One row of the loops of merge at row y: the strided writes, then the right-edge
      write unless w % width == 0. */
  method MergeRow(t: Tiling, preds: seq<Image>, h: nat, w: nat, y: nat, ghost ps: seq<Offset>,
                  ghost rest: seq<Offset>, ghost goal: Result<Image, MergeError>, canvas: Image, n: nat)
    returns (err: Option<MergeError>, canvas': Image, n': nat)
    requires t.AdmitsWidth(w) && IsImage(canvas, h, w) && AllInside(ps, t.height, t.width, h, w)
    requires n <= |ps| && ps[n..] == RowSweep(t, w, 0, y) + (RightEdge(t, w, y) + rest)
    requires PasteFrom(t, canvas, h, w, preds, ps, n) == goal
    ensures err.Some? ==> goal == Err(err.value)
    ensures err.None? ==>
              && n <= n' <= |ps| && IsImage(canvas', h, w) && ps[n'..] == rest
              && PasteFrom(t, canvas', h, w, preds, ps, n') == goal
  {
    err, canvas', n' := MergeSweep(t, preds, h, w, y, ps, RightEdge(t, w, y) + rest, goal, canvas, n);
    if err.Some? {
      return;
    }
    EdgeStep(t, w, y, ps, n', rest);
    if w % t.width != 0 {
      err, canvas' := MergeStep(t, preds, h, w, ps, goal, canvas', n', Offset(w - t.width, y));
      if err.Some? {
        return;
      }
      n' := n' + 1;
    }
  }

  /** The outer loop of merge over the strided rows, `while y + height < h`, from the
      zero canvas; on success it leaves only the bottom row of the walk unvisited. */
  method MergeStridedRows(t: Tiling, preds: seq<Image>, h: nat, w: nat, ghost ps: seq<Offset>,
                          ghost goal: Result<Image, MergeError>)
    returns (err: Option<MergeError>, canvas: Image, index: nat)
    requires t.Admits(h, w) && ps == Positions(t, h, w) && AllInside(ps, t.height, t.width, h, w)
    requires PasteFrom(t, Zeros(h, w), h, w, preds, ps, 0) == goal
    ensures err.Some? ==> goal == Err(err.value)
    ensures err.None? ==>
              && index <= |ps| && IsImage(canvas, h, w)
              && ps[index..] == BottomRow(t, h, w)
              && PasteFrom(t, canvas, h, w, preds, ps, index) == goal
  {
    ghost var bottom := BottomRow(t, h, w);
    canvas := Zeros(h, w);
    index := 0;
    var y: nat := 0;
    while y + t.height < h
      invariant index <= |ps| && IsImage(canvas, h, w)
      invariant ps[index..] == StrideRows(t, h, w, y) + bottom
      invariant PasteFrom(t, canvas, h, w, preds, ps, index) == goal
      decreases h - y
    {
      EnterRow(t, h, w, y, ps, index, bottom);
      err, canvas, index := MergeRow(t, preds, h, w, y, ps, StrideRows(t, h, w, y + t.yStride) + bottom, goal, canvas, index);
      if err.Some? {
        return;
      }
      y := y + t.yStride;
    }
    LeaveRows(t, h, w, y, ps, index);
    err := None;
  }

  /** The loops of `SRCNN.merge`, with an explicit prediction counter, for an expected
      outcome `goal` of the fold over the whole walk. */
  method MergeWalk(t: Tiling, preds: seq<Image>, h: nat, w: nat, ghost goal: Result<Image, MergeError>)
    returns (res: Result<Image, MergeError>)
    requires t.Admits(h, w) && AllInside(Positions(t, h, w), t.height, t.width, h, w)
    requires PasteFrom(t, Zeros(h, w), h, w, preds, Positions(t, h, w), 0) == goal
    ensures res == goal
  {
    ghost var ps := Positions(t, h, w);
    var err, canvas, index := MergeStridedRows(t, preds, h, w, ps, goal);
    if err.Some? {
      return Err(err.value);
    }
    if h % t.height != 0 {
      assert ps[index..] == RowSweep(t, w, 0, h - t.height) + (RightEdge(t, w, h - t.height) + []);
      err, canvas, index := MergeRow(t, preds, h, w, h - t.height, ps, [], goal, canvas, index);
      if err.Some? {
        return Err(err.value);
      }
    }
    assert |ps[index..]| == 0;
    res := Ok(canvas);
  }

  /** `SRCNN.merge` as written, loop by loop: it computes `Merge`. */
  method MergeLoop(t: Tiling, preds: seq<Image>, h: nat, w: nat) returns (res: Result<Image, MergeError>)
    requires t.Admits(h, w)
    ensures res == Merge(t, preds, h, w)
  {
    PositionsFit(t, h, w);
    res := MergeWalk(t, preds, h, w, Merge(t, preds, h, w));
  }

  // ---------------------------------------------------------------------------
  // predict

  /** Why `SRCNN.predict` fails. An empty batch of windows becomes a one-dimensional
      empty array, which the network's four-dimensional input rejects. */
  datatype PredictError =
    | EmptyBatch
    | MergeFailed(cause: MergeError)

  /** `SRCNN.predict`: split, run the network on the batch, merge. The network is a
      parameter; the scaling by 255 around it is not modelled. */
  function Predict(t: Tiling, network: seq<Image> -> seq<Image>, img: Image, h: nat, w: nat)
    : (res: Result<Image, PredictError>)
    requires t.Admits(h, w) && IsImage(img, h, w)
    ensures res == Err(EmptyBatch) <==> |Split(t, img, h, w)| == 0
    ensures var out := network(Split(t, img, h, w));
            (|Split(t, img, h, w)| > 0 && |out| >= |Split(t, img, h, w)| &&
             forall k :: 0 <= k < |Split(t, img, h, w)| ==> IsImage(out[k], t.height, t.width))
            <==> res.Ok?
    ensures res.Ok? ==> IsImage(res.value, h, w)
  {
    var batch := Split(t, img, h, w);
    if |batch| == 0 then Err(EmptyBatch)
    else
      match Merge(t, network(batch), h, w)
      case Ok(image) => Ok(image)
      case Err(cause) => Err(MergeFailed(cause))
  }

  /** With a network that returns its input unchanged, predict fails only on an image no
      larger than the window in some dimension, and otherwise restores every covered pixel
      and zeroes the rest. */
  lemma PredictIdentity(t: Tiling, img: Image, h: nat, w: nat)
    requires t.Admits(h, w) && IsImage(img, h, w)
    ensures Predict(t, batch => batch, img, h, w).Ok? <==> h > t.height && w > t.width
    ensures Predict(t, batch => batch, img, h, w).Ok? ==>
              forall r, c :: 0 <= r < h && 0 <= c < w ==>
                Predict(t, batch => batch, img, h, w).value[r][c] == if Covered(t, h, w, r, c) then img[r][c] else 0
  {
    EmptyIff(t, h, w);
    SplitMergeRoundTrip(t, img, h, w);
  }
}

=== FILE: outcomes.dfy ===
/**
 Outcomes of operations that can fail where `SRCNN.merge` and `SRCNN.predict` raise an exception:
 an optional value, and a value-or-error result.
 */
module Outcomes {

  datatype Option<T> = None | Some(value: T)

  datatype Result<T, E> = Ok(value: T) | Err(error: E)
}

=== FILE: scenarios.dfy ===
/**
 Concrete walks, worked out on small images.
 */
module Scenarios {
  import opened Geometry

  /** A 10 x 10 image, 4 x 4 windows, strides 3: strided corners 0 and 3 in each
      direction, then the edge windows at 6, in raster order. */
  lemma TenByTen()
    ensures Positions(Tiling(4, 4, 3, 3), 10, 10) ==
      [Offset(0, 0), Offset(3, 0), Offset(6, 0),
       Offset(0, 3), Offset(3, 3), Offset(6, 3),
       Offset(0, 6), Offset(3, 6), Offset(6, 6)]
  {
  }

  /** An 8 x 8 image with 4 x 4 windows and strides 4: the strided loops stop as soon as a
      window would touch the far edge, and 8 is a multiple of 4, so only the top-left
      window is visited. */
  lemma EightByEight()
    ensures Positions(Tiling(4, 4, 4, 4), 8, 8) == [Offset(0, 0)]
  {
  }

  /** An image exactly the size of the window has no windows at all. */
  lemma WindowSized()
    ensures Positions(Tiling(4, 4, 4, 4), 4, 4) == []
  {
  }
}

=== FILE: strides.dfy ===
/**
 Arithmetic of strided sweeps. `Steps(k, s)` is the offset k * s of the k-th
 strided window, defined by repeated addition so that proofs about window offsets
 stay linear; `StrideCount(e, s)` counts, in closed form, the strided offsets
 that stay strictly below an extent e. Every fact relating the two to the built-in
 multiplication and division is proved here, each in its own small lemma.
 */
module Strides {

  /** k strides of length s: the offset k * s, by repeated addition. */
  function Steps(k: nat, s: nat): nat
  {
    if k == 0 then 0 else Steps(k - 1, s) + s
  }

  /** The number of k >= 0 with k * stride < extent, in closed form. */
  function StrideCount(extent: int, stride: nat): nat
    requires stride > 0
  {
    if extent <= 0 then 0 else (extent - 1) / stride + 1
  }

  /** `Steps` is multiplication. */
  lemma {:induction false} StepsIsProduct(k: nat, s: nat)
    ensures Steps(k, s) == k * s
  {
    if k > 0 {
      StepsIsProduct(k - 1, s);
      assert (k - 1) * s + s == k * s;
    }
  }

  /** More strides reach at least as far. */
  lemma {:induction false} StepsMonotone(a: nat, b: nat, s: nat)
    requires a <= b
    ensures Steps(a, s) <= Steps(b, s)
    decreases b - a
  {
    if a < b {
      StepsMonotone(a, b - 1, s);
    }
  }

  /** With a positive stride, each further stride moves at least one full stride on. */
  lemma StepsStrict(a: nat, b: nat, s: nat)
    requires a < b
    ensures Steps(a, s) + s <= Steps(b, s)
  {
    StepsMonotone(a + 1, b, s);
  }

  /** No strides, or strides of length zero, go nowhere; anything else goes somewhere. */
  lemma StepsZero(k: nat, s: nat)
    ensures Steps(k, s) == 0 <==> (k == 0 || s == 0)
  {
    StepsIsProduct(k, s);
  }

  lemma MulMonotone(a: nat, b: nat, s: nat)
    requires a <= b
    ensures a * s <= b * s
  {
  }

  /** `StrideCount` counts exactly the strided offsets that stay below the extent. */
  lemma StrideCountExact(extent: int, stride: nat, k: nat)
    requires stride > 0
    ensures k < StrideCount(extent, stride) <==> Steps(k, stride) < extent
  {
    StepsIsProduct(k, stride);
    if extent > 0 {
      var q := (extent - 1) / stride;
      assert q * stride <= extent - 1 < q * stride + stride;
      if k <= q {
        MulMonotone(k, q, stride);
      } else {
        MulMonotone(q + 1, k, stride);
      }
    }
  }

  lemma DivUnique(n: nat, s: nat, q: nat, r: nat)
    requires s > 0 && n == q * s + r && r < s
    ensures n / s == q
  {
    var q', r' := n / s, n % s;
    assert n == q' * s + r';
    if q' > q {
      assert (q + 1) * s == q * s + s;
      MulMonotone(q + 1, q', s);
    } else if q' < q {
      assert (q' + 1) * s == q' * s + s;
      MulMonotone(q' + 1, q, s);
    }
  }

  /** One more stride fits in a positive extent than in the extent shortened by one stride. */
  lemma StrideCountStep(extent: int, stride: nat)
    requires stride > 0 && extent > 0
    ensures StrideCount(extent, stride) == StrideCount(extent - stride, stride) + 1
  {
    if extent - stride > 0 {
      var a := extent - 1 - stride;
      var q, r := a / stride, a % stride;
      assert (q + 1) * stride == q * stride + stride;
      DivUnique(a + stride, stride, q + 1, r);
    }
  }

  /** Every offset n lies in the stride that starts at Steps(q, s) for some q. */
  lemma StepsFloor(n: nat, s: nat) returns (q: nat)
    requires s > 0
    ensures Steps(q, s) <= n < Steps(q, s) + s
  {
    q := n / s;
    StepsIsProduct(q, s);
  }

  /** Splitting an index i < Steps(rows, cols) of a row-major grid into row and column. */
  lemma GridIndex(i: nat, rows: nat, cols: nat) returns (k: nat, j: nat)
    requires i < Steps(rows, cols)
    ensures k < rows && j < cols && i == Steps(k, cols) + j
  {
    StepsZero(rows, cols);
    k := StepsFloor(i, cols);
    j := i - Steps(k, cols);
    if k >= rows {
      StepsMonotone(rows, k, cols);
    }
  }

  /** Row-major order: an earlier index is in an earlier row, or further left in the same row. */
  lemma GridOrder(k1: nat, j1: nat, k2: nat, j2: nat, cols: nat)
    requires j1 < cols && j2 < cols
    requires Steps(k1, cols) + j1 < Steps(k2, cols) + j2
    ensures k1 < k2 || (k1 == k2 && j1 < j2)
  {
    if k1 > k2 {
      StepsStrict(k2, k1, cols);
    }
  }
}

=== FILE: tiler.dfy ===
/**
 `SRCNN.split`: the image is cut into the windows of the shared walk, in walk order.
 `Split` states the result through `Positions`; `SplitLoop` follows the nested
 loops of `SRCNN.split` step by step and is proved to produce the same batch.
 */
module Tiler {
  import opened Geometry
  import opened Images

  /** The batch of windows read from an h x w image: entry i is the window at the
      i-th corner of the walk. */
  function Split(t: Tiling, img: Image, h: nat, w: nat): (batch: seq<Image>)
    requires t.Admits(h, w) && IsImage(img, h, w)
    ensures |batch| == |Positions(t, h, w)|
    ensures forall i :: 0 <= i < |batch| ==> WindowOf(batch[i], img, Positions(t, h, w)[i], t.height, t.width)
  {
    PositionsFit(t, h, w);
    CropAll(img, h, w, Positions(t, h, w), t.height, t.width)
  }

  /** Appending the window read at the next corner of the walk extends the batch by
      the next entry of the expected batch. */
  lemma Emit(img: Image, h: nat, w: nat, height: nat, width: nat,
             ps: seq<Offset>, whole: seq<Image>, batch: seq<Image>, p: Offset)
    requires IsImage(img, h, w) && AllInside(ps, height, width, h, w)
    requires whole == CropAll(img, h, w, ps, height, width)
    requires |batch| < |ps| && ps[|batch|] == p && batch == whole[..|batch|]
    ensures Encloses(img, p, height, width)
    ensures batch + [Crop(img, p, height, width)] == whole[..|batch| + 1]
  {
    CropAllAt(img, h, w, ps, |batch|, height, width);
    PrefixSnoc(whole, |batch|);
  }

  /** The strided windows of one row of `SRCNN.split`: `while x + width < w`, from column 0. */
  method SplitSweep(t: Tiling, img: Image, h: nat, w: nat, y: nat,
                    ghost ps: seq<Offset>, ghost tail: seq<Offset>, ghost whole: seq<Image>, batch: seq<Image>)
    returns (batch': seq<Image>)
    requires t.Admits(h, w) && IsImage(img, h, w)
    requires AllInside(ps, t.height, t.width, h, w) && whole == CropAll(img, h, w, ps, t.height, t.width)
    requires |batch| <= |ps| && batch == whole[..|batch|]
    requires ps[|batch|..] == RowSweep(t, w, 0, y) + tail
    ensures |batch| <= |batch'| <= |ps|
    ensures batch' == whole[..|batch'|]
    ensures ps[|batch'|..] == tail
  {
    batch' := batch;
    var x: nat := 0;
    while x + t.width < w
      invariant |batch| <= |batch'| <= |ps|
      invariant batch' == whole[..|batch'|]
      invariant ps[|batch'|..] == RowSweep(t, w, x, y) + tail
      decreases w - x
    {
      SweepStep(t, w, x, y, ps, |batch'|, tail);
      ghost var unvisited := RowSweep(t, w, x + t.xStride, y) + tail;
      Emit(img, h, w, t.height, t.width, ps, whole, batch', Offset(x, y));
      batch' := batch' + [Crop(img, Offset(x, y), t.height, t.width)];
      x := x + t.xStride;
      assert ps[|batch'|..] == unvisited;
    }
    SweepEnd(t, w, x, y, ps, |batch'|, tail);
  }

  /** One row of the loops of `SRCNN.split` at row y: strided windows while x + width < w,
      then the right-edge window unless w % width == 0. The ghost walk ps, its unvisited
      suffix and the whole expected batch tell which windows the row must append. */
  method SplitRow(t: Tiling, img: Image, h: nat, w: nat, y: nat,
                  ghost ps: seq<Offset>, ghost rest: seq<Offset>, ghost whole: seq<Image>, batch: seq<Image>)
    returns (batch': seq<Image>)
    requires t.Admits(h, w) && IsImage(img, h, w) && y + t.height <= h
    requires AllInside(ps, t.height, t.width, h, w) && whole == CropAll(img, h, w, ps, t.height, t.width)
    requires |batch| <= |ps| && batch == whole[..|batch|]
    requires ps[|batch|..] == RowSweep(t, w, 0, y) + (RightEdge(t, w, y) + rest)
    ensures |batch| <= |batch'| <= |ps|
    ensures batch' == whole[..|batch'|]
    ensures ps[|batch'|..] == rest
  {
    batch' := SplitSweep(t, img, h, w, y, ps, RightEdge(t, w, y) + rest, whole, batch);
    EdgeStep(t, w, y, ps, |batch'|, rest);
    if w % t.width != 0 {
      Emit(img, h, w, t.height, t.width, ps, whole, batch', Offset(w - t.width, y));
      batch' := batch' + [Crop(img, Offset(w - t.width, y), t.height, t.width)];
    }
  }

  /** The loops of `SRCNN.split`: strided rows while y + height < h, then the bottom row
      at h - height unless h % height == 0. */
  method SplitLoop(t: Tiling, img: Image, h: nat, w: nat) returns (batch: seq<Image>)
    requires t.Admits(h, w) && IsImage(img, h, w)
    ensures batch == Split(t, img, h, w)
  {
    ghost var ps := Positions(t, h, w);
    ghost var bottom := BottomRow(t, h, w);
    ghost var whole := Split(t, img, h, w);
    PositionsFit(t, h, w);
    batch := [];
    var y: nat := 0;
    while y + t.height < h
      invariant |batch| <= |ps|
      invariant batch == whole[..|batch|]
      invariant ps[|batch|..] == StrideRows(t, h, w, y) + bottom
      decreases h - y
    {
      EnterRow(t, h, w, y, ps, |batch|, bottom);
      batch := SplitRow(t, img, h, w, y, ps, StrideRows(t, h, w, y + t.yStride) + bottom, whole, batch);
      y := y + t.yStride;
    }
    LeaveRows(t, h, w, y, ps, |batch|);
    if h % t.height != 0 {
      batch := SplitRow(t, img, h, w, h - t.height, ps, [], whole, batch);
    }
    assert whole[..|batch|] == whole;
  }
}
